=== FILE: README.md ===
# kilo-rust editor core in Dafny

This project models the buffer and cursor engine of the kilo-rust terminal
text editor (`src/editor.rs`). The model keeps the editor state as an
immutable `Editor` datatype and writes each operation as a pure function. The
state holds:
- the ordered rows, each a byte sequence;
- the character-space cursor and the render-space cursor;
- the scroll offset and the window size;
- the status message, the file name, the dirty flag and the key history.

Modules, one per component:

- `EditorRow` (`row.dfy`): a row as `chars: seq<byte>`. The row's own file,
  `src/row.rs`, is not part of this model. Its operations get their plain
  sequence meanings, and these are **assumptions**:
  - `insert_char` inserts at a column clamped to the row's length;
  - `delete_char` removes the byte at an in-range column and does nothing past the end;
  - `split(k)` keeps `chars[..k]` and returns `chars[k..]`;
  - `append` concatenates.

  The position type's file, `src/position.rs`, is not part of this model
  either. Its `-=` is **assumed** to subtract component by component; arrow-left
  inside a line and every arrow-up rely on this.

  Tab expansion and `render_position` are not modelled. Every operation that
  needs the character-to-render column mapping takes it as a function
  parameter `rp`, and every property holds for every such mapping.
- `EditorState` (`editor.dfy`): `Position`, `Key`, `Editor` and the cursor
  invariant `CursorInBounds`. Under that invariant the row index may equal the
  row count (the end-of-buffer row). The column may equal the row's length,
  and it is 0 on the end-of-buffer row.
- `Movement` (`movement.dfy`): `move_cursor`.
- `Viewport` (`scroll.dfy`): `scroll` and the placement of the terminal cursor.
- `Edits` (`edits.dfy`): `insert_row`, `open_empty`, `insert_newline`,
  `insert_char`, `backspace`.
- `SavePrompt` (`prompt.dfy`): the byte loop of `save_prompt`, as a fold over
  the input bytes (`Collect`, `Prompt`) and as the loop itself (`RunPrompt`).
- `FileFormat` (`file.dfy`): the bytes a save writes and the rows a load reads.
- `Dispatch` (`dispatch.dfy`): `process_keypress`, `save` and the quit gate.

Where the source would panic, the model has a `requires` clause instead. This
covers an index out of bounds, `Vec::insert` or `Vec::remove` past the end, and
an unsigned subtraction below zero (which panics in a debug build).

Behaviour of the code that is easy to misread; the model follows the code:

- A `Null` key between two Ctrl-Q presses does not disarm the quit gate,
  because `Null` returns before the history is updated.
  `Dispatch.NullKeepsQuitArmed` states this.
- Page up and page down move the row but keep the column. The column can
  therefore end up past the end of the row it lands on, which breaks the
  cursor invariant. `Dispatch.PageUpKeepsColumnPastRowEnd` shows a case.
- `open_empty` goes through `insert_row`, so it marks the buffer dirty.
- After a backspace that joins two lines, the render cursor is not recomputed.
- The End arm does not move to the end of the line. See the Findings below.

## Model

| member | source | states |
|---|---|---|
| `EditorRow.DeleteAfterInsert` | src/editor.rs:380-392 | deleting the byte just inserted at the same column gives back the original row |
| `EditorRow.InsertAfterDelete` | src/editor.rs:387-392 | re-inserting a deleted byte at its column gives back the original row |
| `EditorRow.AppendAfterSplit` | src/editor.rs:369-401 | appending the right part of a split back onto the left part reconstructs the row exactly |
| `Movement.MoveCursor` | src/editor.rs:164-229 | every arrow keeps the cursor invariant and changes only the cursor; other keys change nothing; movement never steps onto the end-of-buffer row; arrow-up goes one row up without widening the column, and from the end-of-buffer row to the start of the last row; arrow-down goes one row down, and on the last row changes nothing; arrow-left and arrow-right inside a line move one column |
| `Movement.ArrowUpFromBufferEnd` | src/editor.rs:202-205 | arrow-up from the end-of-buffer row lands at column 0 of the last row, and arrow-down from there changes nothing |
| `Movement.ArrowUpClampsColumn` | src/editor.rs:202-219 | arrow-up moves one row up and clamps the column to the new row's length |
| `Movement.ArrowLeftAtLineStart` | src/editor.rs:181-190 | at (0,0) arrow-left is a no-op; at column 0 of row y>0 it goes to the end of row y-1 |
| `Movement.ArrowRightAtLineEnd` | src/editor.rs:191-201 | at the end of a row that is not the last, arrow-right goes to column 0 of the next row |
| `Movement.ArrowRightAtBufferEnd` | src/editor.rs:191-194 | at the end of the last row, or on the end-of-buffer row, arrow-right stays put |
| `Movement.ArrowDownClampsColumn` | src/editor.rs:220-227 | arrow-down moves one row and clamps the column to the new row's length |
| `Movement.LeftUndoesRight` | src/editor.rs:181-201 | arrow-left undoes every arrow-right that moved the cursor |
| `Movement.RightUndoesLeft` | src/editor.rs:181-201 | arrow-right undoes arrow-left except at (0,0) and on the end-of-buffer row |
| `Movement.UpUndoesDown` | src/editor.rs:202-227 | arrow-up undoes arrow-down when the column needed no clamping |
| `Viewport.ScrollAxis` | src/editor.rs:332-343 | with a window of at least one cell the position lies in the window afterwards; an already-visible position keeps the offset |
| `Viewport.Scroll` | src/editor.rs:326-344 | the render column comes from the row's mapping (0 on the end-of-buffer row); the cursor is visible on both axes; only the offset and the render cursor change |
| `Viewport.ScrollIdempotent` | src/editor.rs:326-344 | a second scroll changes nothing |
| `Viewport.AxisMovesLeast` | src/editor.rs:332-343 | the new offset is no further from the old one than any offset that shows the cursor |
| `Viewport.ScreenCursor` | src/editor.rs:238-241 | the 1-based terminal cursor coordinates, defined only when the offset is not past the cursor |
| `Viewport.ScrolledCursorOnScreen` | src/editor.rs:232-241 | after a scroll the cursor placement does not underflow and lands inside the window |
| `Edits.InsertRow` | src/editor.rs:346-350 | the row is placed at index `at`, the rows after it shift down one, the rest is untouched, and the buffer is dirty |
| `Edits.OpenEmpty` | src/editor.rs:62-70 | one empty row is put in front of the rows and the buffer is marked dirty |
| `Edits.InsertNewline` | src/editor.rs:352-378 | the row count grows by one; the cursor's row becomes its part before the cursor and the new next row its part after; other rows are unchanged or shifted; cursor at (0, y+1) |
| `Edits.InsertChar` | src/editor.rs:380-385 | only the cursor's row changes, by inserting the byte at the cursor; both cursors advance one column; the buffer is dirty |
| `Edits.Backspace` | src/editor.rs:387-404 | at (0,0) nothing changes; inside a line the byte left of the cursor is removed; at column 0 of a later row the row is joined onto the previous one and the cursor goes to the old end of that row |
| `Edits.BackspaceUndoesInsertChar` | src/editor.rs:380-404 | typing a byte and then backspacing restores the rows and the cursor |
| `Edits.BackspaceUndoesNewline` | src/editor.rs:352-404 | Enter and then backspace restore the rows and the cursor |
| `Edits.NewlineAtLineEndExample` | src/editor.rs:361-377 | Enter at the end of "abc" in ["abc","def"] gives ["abc","","def"] with the cursor at (0,1) |
| `Edits.JoinExample` | src/editor.rs:393-403 | backspace at (0,1) in ["ab","cd"] gives ["abcd"] with the cursor at (2,0) |
| `SavePrompt.Edit` | src/editor.rs:101-107 | printable bytes are appended, byte 8 drops the last byte (nothing on an empty buffer), other bytes are ignored; the buffer stays printable |
| `SavePrompt.Collect` | src/editor.rs:95-108 | the buffer collected from any bytes is all printable ASCII and no longer than the input |
| `SavePrompt.FirstTerminator` | src/editor.rs:99-104 | the index of the first Enter or Escape: none before it, a terminator at it |
| `SavePrompt.RunPrompt` | src/editor.rs:90-115 | the loop stops at the first Enter or Escape and agrees with the fold; an accepted name is printable and shorter than the bytes consumed |
| `SavePrompt.AcceptedNamePrintable` | src/editor.rs:106 | every byte of an accepted name is in 32..=126 |
| `SavePrompt.PromptEndsAtFirstTerminator` | src/editor.rs:99-104 | Escape before any Enter cancels; Enter before any Escape accepts the bytes collected so far |
| `SavePrompt.PromptIgnoresTrailingInput` | src/editor.rs:95-104 | once the prompt has finished, later bytes change nothing |
| `SavePrompt.EraseUndoesTyping` | src/editor.rs:102-106 | a printable byte followed by byte 8 leaves the buffer as it was |
| `SavePrompt.EraseOnEmpty` | src/editor.rs:102 | byte 8 on an empty buffer leaves it empty |
| `FileFormat.Serialise` | src/editor.rs:82-85 | the file is every row followed by one newline, so its length is the bytes of the rows plus the row count, and it ends in a newline |
| `FileFormat.ParseLines` | src/editor.rs:46-57 | loading yields rows without newline bytes, no more rows than bytes |
| `FileFormat.ParseFirstLine` | src/editor.rs:46-57 | the first newline ends the first row, which loses a carriage return just before that newline; the bytes after it are read as a file of their own |
| `FileFormat.UnterminatedLastLineKept` | src/editor.rs:46-57 | a final line without a newline still becomes a row, with any carriage return kept |
| `FileFormat.ReturnBeforeNewlineDropped` | src/editor.rs:46-57 | a line ended by a carriage return and a newline becomes a row without either, and the rest is parsed on its own |
| `FileFormat.ParseAfterSerialise` | src/editor.rs:43-88 | reading back what a save writes gives the same rows, for rows without a newline inside or a carriage return at the end |
| `FileFormat.OpenFile` | src/editor.rs:43-60 | exactly the file's lines are appended after the existing rows, the file name is recorded, the buffer is clean and nothing else changes |
| `FileFormat.OpenAfterSave` | src/editor.rs:43-88 | opening a saved buffer in an empty editor gives back the saved rows |
| `FileFormat.WriteRowsAsWritten` | src/editor.rs:82-85 | the save as written: every row keeps the newline pushed onto it |
| `FileFormat.SecondSaveAsWrittenGrows` | src/editor.rs:82-85 | under the save as written, a second save writes one more byte per row |
| `FileFormat.SaveTwiceAsWrittenExample` | src/editor.rs:82-85 | under the save as written, "a" is saved as "a\n" and then as "a\n\n" |
| `Dispatch.AsText` | src/editor.rs:75 | printable ASCII bytes read as text, one character per byte |
| `Dispatch.MoveToLineEndAsWritten` | src/editor.rs:130-134 | the End arm as written panics exactly on the end-of-buffer row and otherwise changes nothing |
| `Dispatch.EndAsWrittenNeverReachesLineEnd` | src/editor.rs:130-134 | as written, End never brings a cursor inside a line to the line's end; the corrected End does |
| `Dispatch.EndAsWrittenExample` | src/editor.rs:130-134 | on ["ab"], End as written stays at (0,0) and panics at (0,1); the corrected End goes to (2,0) |
| `Dispatch.MoveToLineEnd` | src/editor.rs:130-134 | corrected End: the cursor goes to the end of its row, the end-of-buffer row is left alone, the invariant is kept |
| `Dispatch.PageUpJump` | src/editor.rs:123 | page up puts the cursor on the top row of the window (row `offset.y`) and keeps the column |
| `Dispatch.PageDownJump` | src/editor.rs:124-129 | page down puts the cursor on the bottom row of the window, never past the end-of-buffer row, and keeps the column |
| `Dispatch.PageUpKeepsColumnPastRowEnd` | src/editor.rs:123 | page up can leave the column past the end of the row it lands on |
| `Dispatch.WriteOut` | src/editor.rs:80-87 | a successful write produces the serialised rows and clears the dirty flag; a failed one changes nothing and reports the disk's message |
| `Dispatch.Save` | src/editor.rs:72-88 | the rows are never changed; success exactly when the disk accepts and a name is known or accepted; a cancelled prompt fails with "user canceled"; an accepted name becomes the file name; while prompting, the status line echoes "Save as: " and the name typed so far, and the view is scrolled, offset and render cursor, exactly when a byte was read before the terminator; with a known name the offset, render cursor and status are untouched |
| `Dispatch.SaveTwiceWritesSameBytes` | src/editor.rs:72-88 | two successful saves of a named buffer write the same bytes |
| `Dispatch.Quit` | src/editor.rs:135-150 | Ctrl-Q exits exactly when the buffer is clean or the previous key was Ctrl-Q; otherwise it sets the warning |
| `Dispatch.ProcessKeypress` | src/editor.rs:117-162 | Null changes nothing and returns false; every other key is appended to the history; only Ctrl-Q can allow exit; with the corrected End and save, only edit keys change the rows; page down keeps the row index within the buffer; keys other than the page keys keep the cursor invariant; Ctrl-S leaves "Written to disk" or the save's error in the status line; every key other than Ctrl-S keeps a dirty buffer dirty; each key runs exactly its own arm (Enter, a character, backspace, the page keys, End, Ctrl-Q, Ctrl-S), and the arrows, Ctrl-L, Ctrl-H and all other control keys only get recorded |
| `Dispatch.QuitTwiceWhenDirty` | src/editor.rs:135-150 | with unsaved changes the first Ctrl-Q warns and an immediate second one exits |
| `Dispatch.QuitAtOnceWhenClean` | src/editor.rs:147-149 | a clean buffer exits on the first Ctrl-Q |
| `Dispatch.NullKeepsQuitArmed` | src/editor.rs:135-160 | a Null key between two Ctrl-Q presses does not disarm the gate |
| `Dispatch.OtherKeyDisarmsQuit` | src/editor.rs:135-160 | any other key between two Ctrl-Q presses disarms the gate while the buffer stays dirty |

## Findings

| source | as written | input that shows it | evidently intended | confidence | as-written member | corrected member |
|---|---|---|---|---|---|---|
| src/editor.rs:130-134 | the End arm acts only when the cursor is on the end-of-buffer row, and then reads `rows[rows.len()]` | rows ["ab"]: at (0,1) End indexes past the last row; at (0,0) End leaves the cursor at column 0 | act when the cursor is on a real row and move it to that row's length | high; not executed | `Dispatch.MoveToLineEndAsWritten` | `Dispatch.MoveToLineEnd` |
| src/editor.rs:82-84 | save pushes a newline onto each row's own bytes before writing it | rows ["a"], saved twice: the file holds "a\n" and then "a\n\n", and the row itself now ends in a newline | write each row followed by a newline and leave the rows unchanged | high; not executed | `FileFormat.WriteRowsAsWritten` | `Dispatch.Save` |

`Dispatch.ProcessKeypress` uses the corrected End and the corrected save.

## Left out

- `Dispatch.ProcessKeypress`: does not promise the cursor invariant after page up or page down, because the source keeps the column there (see `Dispatch.PageUpKeepsColumnPastRowEnd`).
- `Movement.MoveCursor`: arrow-up from the top row is excluded by its precondition, because subtracting one from row 0 underflows the unsigned row index there, which panics in a debug build.
- `Editor::new`: it probes the terminal size, which is terminal I/O.
- `refresh_screen`, `draw_rows`, `draw_status_bar`: these produce terminal output. Only the scroll and the cursor placement are modelled. Two hazards there are not modelled. The visible-row slice panics when the offset is past the rendered row. The status-bar padding at src/editor.rs:310 underflows when the status text is wider than the window.
- The welcome-banner branch of `draw_rows`: terminal output.
- Tab expansion, `update` and `render_position`: these live in `src/row.rs`, which is not part of this model. The mapping is the parameter `rp`.
- The disk side of `open_file` and `save`:
  - Reading and writing files is not modelled. The disk's answer to a save is a parameter.
  - Lines the reader rejects as invalid UTF-8 are skipped by the source. The model does not represent that.
  - A write that fails after some rows were written is treated like any other failure. The corrected save does not change the rows, so nothing else depends on it.
- The stdin read in `save_prompt`: the bytes are a parameter. An input with no Enter or Escape would block forever, so `Save` requires one.
- The status messages set inside the prompt loop: only the last one is kept, and `process_keypress` overwrites it.
- The screen refreshes inside the prompt loop: modelled only through their scroll of the view (see `Dispatch.Save`); drawing itself is output.
- Integer widths: additions that would overflow `usize` are not modelled, because integers are unbounded. Subtractions that would go below zero are preconditions.
- Key variants that `src/editor.rs` does not name: they fall into the catch-all arm. The key decoder (`src/key.rs`) is not part of this model.
- `src/main.rs`: raw-mode setup, argument parsing and the key loop are terminal and OS plumbing.

=== FILE: dispatch.dfy ===
/**
 * Command dispatch (`process_keypress` in src/editor.rs): one decoded key is
 * applied to the editor, and the result says whether the editor may exit.
 * Every key but `Null` is appended to the key history, which serves only the
 * two-press quit gate. Saving (`save`) is modelled here too, with the prompt's
 * input and the disk's answer as parameters.
 */
module Dispatch {
  import opened Wrappers
  import opened EditorRow
  import opened EditorState
  import opened Viewport
  import opened Edits
  import opened SavePrompt
  import opened FileFormat

  /** What the disk answers to a save: the bytes were written, or an error message. */
  datatype Disk = Written | Failed(message: string)

  datatype Dispatched = Dispatched(editor: Editor, allowExit: bool)

  const UnsavedWarning: string := "WARNING!! File has unsaved changes. Press Ctrl-Q again to quit."
  const WrittenMessage: string := "Written to disk"
  const CanceledMessage: string := "user canceled"
  const SaveAsLabel: string := "Save as: "

  /** Printable ASCII bytes read as text, one character per byte. */
  function AsText(bytes: seq<byte>): (t: string)
    requires AllPrintable(bytes)
    ensures |t| == |bytes|
    ensures forall i :: 0 <= i < |t| ==> t[i] as int == bytes[i]
  {
    seq(|bytes|, i requires 0 <= i < |bytes| => bytes[i] as char)
  }

  // ---------------------------------------------------------------------
  // End

  /**
   * The End arm as the source writes it: the guard asks whether the cursor
   * is on the end-of-buffer row and then reads that row, which does not
   * exist. `None` stands for that out-of-bounds panic; otherwise nothing moves.
   */
  function MoveToLineEndAsWritten(e: Editor): (r: Option<Editor>)
    requires e.cursor.y <= |e.rows|
    ensures r.None? <==> e.cursor.y == |e.rows|
    ensures r.Some? ==> r.value == e
  {
    if e.cursor.y == |e.rows| then None else Some(e)
  }

  /**
   * As written, End either panics or leaves the cursor where it is: it never
   * reaches the end of a line the cursor is not already at.
   */
  lemma EndAsWrittenNeverReachesLineEnd(e: Editor)
    requires CursorInBounds(e)
    requires e.cursor.y < |e.rows| && e.cursor.x < |e.rows[e.cursor.y].chars|
    ensures MoveToLineEndAsWritten(e).Some?
    ensures MoveToLineEndAsWritten(e).value.cursor.x != |e.rows[e.cursor.y].chars|
    ensures MoveToLineEnd(e).cursor.x == |e.rows[e.cursor.y].chars|
  {
  }

  /** The concrete case: on the one-row buffer "ab", End at (0,0) stays and End at (0,1) panics. */
  lemma EndAsWrittenExample(e: Editor)
    requires e.rows == [Row([97, 98])]
    ensures MoveToLineEndAsWritten(e.(cursor := Position(0, 0))) == Some(e.(cursor := Position(0, 0)))
    ensures MoveToLineEndAsWritten(e.(cursor := Position(0, 1))).None?
    ensures MoveToLineEnd(e.(cursor := Position(0, 0))).cursor == Position(2, 0)
  {
  }

  /** End as evidently intended: move to the end of the current row; nothing on the end-of-buffer row. */
  function MoveToLineEnd(e: Editor): (r: Editor)
    ensures r == e.(cursor := r.cursor)
    ensures e.cursor.y < |e.rows| ==> r.cursor == Position(|e.rows[e.cursor.y].chars|, e.cursor.y)
    ensures e.cursor.y >= |e.rows| ==> r == e
    ensures CursorInBounds(e) ==> CursorInBounds(r)
  {
    if e.cursor.y < |e.rows| then e.(cursor := e.cursor.(x := |e.rows[e.cursor.y].chars|)) else e
  }

  // ---------------------------------------------------------------------
  // Page up and page down

  /** Page up: the cursor jumps to the top row of the window; the column is kept. */
  function PageUpJump(e: Editor): (r: Editor)
    ensures r == e.(cursor := r.cursor)
    ensures r.cursor == Position(e.cursor.x, e.offset.y)
    ensures e.window.y >= 1 ==> InWindow(r.cursor.y, e.offset.y, e.window.y)
    ensures e.offset.y <= e.cursor.y ==> r.cursor.y <= e.cursor.y
  {
    e.(cursor := e.cursor.(y := e.offset.y))
  }

  /**
   * Page down: the cursor jumps to the bottom row of the window, but not past
   * the end-of-buffer row; the column is kept. The unsigned subtraction needs
   * a window or an offset of at least one.
   */
  function PageDownJump(e: Editor): (r: Editor)
    requires e.offset.y + e.window.y >= 1
    ensures r == e.(cursor := r.cursor)
    ensures r.cursor.x == e.cursor.x
    ensures r.cursor.y <= |e.rows|
    ensures r.cursor.y == |e.rows| || r.cursor.y == e.offset.y + e.window.y - 1
    ensures e.window.y >= 1 && e.offset.y <= |e.rows| ==> InWindow(r.cursor.y, e.offset.y, e.window.y)
  {
    var bottom := e.offset.y + e.window.y - 1;
    e.(cursor := e.cursor.(y := if bottom > |e.rows| then |e.rows| else bottom))
  }

  /**
   * Neither page key clamps the column, so it can end up past the end of the
   * row it lands on: "ab" over "abcdef" with the cursor at (6,1) and the
   * window at the top, page up leaves the cursor at (6,0).
   */
  lemma PageUpKeepsColumnPastRowEnd(e: Editor)
    requires e.rows == [Row([97, 98]), Row([97, 98, 99, 100, 101, 102])]
    requires e.cursor == Position(6, 1) && e.offset == Position(0, 0)
    ensures CursorInBounds(e)
    ensures PageUpJump(e).cursor == Position(6, 0)
    ensures !CursorInBounds(PageUpJump(e))
  {
  }

  // ---------------------------------------------------------------------
  // Save

  /** An unnamed buffer asks for a name; the prompt blocks until Enter or Escape arrives. */
  predicate PromptFinishes(e: Editor, input: seq<byte>) {
    e.fileName == NoName ==> !Prompt(input).Waiting?
  }

  /** Hand the rows to the disk; success clears the dirty flag. */
  function WriteOut(e: Editor, disk: Disk): (r: (Editor, Result<seq<byte>, string>))
    ensures r.0.rows == e.rows && r.0.fileName == e.fileName
    ensures r.1.Success? <==> disk.Written?
    ensures r.1.Success? ==> r.1.value == Serialise(e.rows) && !r.0.isDirty
    ensures r.1.Failure? ==> r.0 == e && r.1.error == disk.message
  {
    match disk
    case Written => (e.(isDirty := false), Success(Serialise(e.rows)))
    case Failed(m) => (e, Failure(m))
  }

  /**
   * Save the buffer, as evidently intended: the rows are serialised without
   * being changed. An unnamed buffer first runs the prompt on `input`: the
   * status line echoes the collected name, the screen is redrawn (which
   * scrolls) after every byte before the terminator, Escape cancels, and an
   * accepted name becomes the file name. `disk` is the disk's answer.
   */
  function Save(e: Editor, rp: RenderPosition, input: seq<byte>, disk: Disk): (r: (Editor, Result<seq<byte>, string>))
    requires PromptFinishes(e, input)
    ensures r.0.rows == e.rows && r.0.cursor == e.cursor && r.0.window == e.window
    ensures r.0.history == e.history
    ensures r.1.Success? <==> disk.Written? && (e.fileName != NoName || Prompt(input).Accepted?)
    ensures r.1.Success? ==> r.1.value == Serialise(e.rows) && !r.0.isDirty
    ensures r.1.Failure? ==> r.0.isDirty == e.isDirty
    ensures e.fileName == NoName && Prompt(input).Canceled? ==> r.1 == Failure(CanceledMessage)
    ensures e.fileName == NoName && Prompt(input).Accepted? ==> r.0.fileName == AsText(Prompt(input).name)
    ensures e.fileName != NoName ==> r.0.fileName == e.fileName
    // the prompt echoes the collected name, and its redraws scroll the view
    ensures e.fileName == NoName ==>
      r.0.statusMessage == SaveAsLabel + AsText(Collect(input[..FirstTerminator(input)]))
    ensures e.fileName == NoName && FirstTerminator(input) > 0 ==>
      r.0.offset == Scroll(e, rp).offset && r.0.renderCursor == Scroll(e, rp).renderCursor
    ensures e.fileName == NoName && FirstTerminator(input) == 0 ==>
      r.0.offset == e.offset && r.0.renderCursor == e.renderCursor
    ensures e.fileName != NoName ==>
      r.0.offset == e.offset && r.0.renderCursor == e.renderCursor && r.0.statusMessage == e.statusMessage
  {
    if e.fileName == NoName then
      var i := FirstTerminator(input);
      var shown := e.(statusMessage := SaveAsLabel + AsText(Collect(input[..i])));
      var redrawn := if i > 0 then Scroll(shown, rp) else shown;
      var answer := Prompt(input);
      if answer.Canceled? then (redrawn, Failure(CanceledMessage))
      else WriteOut(redrawn.(fileName := AsText(answer.name)), disk)
    else
      WriteOut(e, disk)
  }

  /** A second successful save writes exactly the same bytes and leaves the rows alone. */
  lemma SaveTwiceWritesSameBytes(e: Editor, rp: RenderPosition, input: seq<byte>, more: seq<byte>)
    requires e.fileName != NoName
    ensures var first := Save(e, rp, input, Written);
      var second := Save(first.0, rp, more, Written);
      && first.1 == Success(Serialise(e.rows))
      && second.1 == first.1
      && second.0.rows == e.rows
  {
  }

  // ---------------------------------------------------------------------
  // Quit gate and dispatch

  /** The previous key was Ctrl-Q. */
  predicate LastIsQuit(history: seq<Key>) {
    |history| > 0 && history[|history| - 1] == QuitKey
  }

  /** Ctrl-Q: exit when the buffer is clean or Ctrl-Q was the previous key; otherwise warn. */
  function Quit(e: Editor): (d: Dispatched)
    ensures d.allowExit <==> !e.isDirty || LastIsQuit(e.history)
    ensures d.allowExit ==> d.editor == e
    ensures !d.allowExit ==> d.editor == e.(statusMessage := UnsavedWarning)
  {
    if !e.isDirty || LastIsQuit(e.history) then Dispatched(e, true)
    else Dispatched(e.(statusMessage := UnsavedWarning), false)
  }

  /** What each key needs of the state so that its arm does not panic. */
  predicate CanDispatch(e: Editor, key: Key, input: seq<byte>) {
    && (key.Enter? ==> CanInsertNewline(e))
    && (key.Char? ==> e.cursor.y < |e.rows|)
    && (key.BackSpace? ==> CanBackspace(e))
    && (key.PageDown? ==> e.offset.y + e.window.y >= 1)
    && (key == SaveKey ==> PromptFinishes(e, input))
  }

  /** The arm of the dispatch for one key, before the key is recorded. */
  function Apply(e: Editor, key: Key, rp: RenderPosition, input: seq<byte>, disk: Disk): Dispatched
    requires CanDispatch(e, key, input)
  {
    match key
    case Enter => Dispatched(InsertNewline(e), false)
    case Char(c) => Dispatched(Edits.InsertChar(e, c), false)
    case BackSpace => Dispatched(Backspace(e, rp), false)
    case PageUp => Dispatched(PageUpJump(e), false)
    case PageDown => Dispatched(PageDownJump(e), false)
    case End => Dispatched(MoveToLineEnd(e), false)
    case Ctrl(_) =>
      if key == QuitKey then Quit(e)
      else if key == SaveKey then
        var (saved, outcome) := Save(e, rp, input, disk);
        Dispatched(saved.(statusMessage := if outcome.Success? then WrittenMessage else outcome.error), false)
      else Dispatched(e, false)
    case _ => Dispatched(e, false)
  }

  /**
   * Apply one key. `rp` is the rows' render mapping, `input` the bytes the
   * save prompt would read and `disk` the disk's answer to a save.
   */
  function ProcessKeypress(e: Editor, key: Key, rp: RenderPosition, input: seq<byte>, disk: Disk): (r: Dispatched)
    requires CanDispatch(e, key, input)
    ensures key.Null? ==> r == Dispatched(e, false)
    ensures !key.Null? ==> r.editor.history == e.history + [key]
    ensures r.allowExit ==> key == QuitKey
    ensures key == QuitKey ==> (r.allowExit <==> !e.isDirty || LastIsQuit(e.history))
    ensures key == QuitKey ==> r.editor.rows == e.rows && r.editor.isDirty == e.isDirty
    ensures key == QuitKey && !r.allowExit ==> r.editor.statusMessage == UnsavedWarning
    ensures r.editor.window == e.window
    ensures !(key.Enter? || key.Char? || key.BackSpace?) ==> r.editor.rows == e.rows
    ensures key.Enter? || key.Char? ==> r.editor.isDirty
    ensures key.PageDown? ==> r.editor.cursor.y <= |e.rows|
    ensures key == SaveKey ==>
      var out := Save(e, rp, input, disk).1;
      r.editor.statusMessage == if out.Success? then WrittenMessage else out.error
    ensures CursorInBounds(e) && !key.PageUp? && !key.PageDown? ==> CursorInBounds(r.editor)
    // only a save can clear the dirty flag, which is what the quit gate relies on
    ensures e.isDirty && key != SaveKey ==> r.editor.isDirty
    // each key runs its own arm, and the key is recorded
    ensures key.Enter? ==> r == Dispatched(InsertNewline(e).(history := e.history + [key]), false)
    ensures key.Char? ==> r == Dispatched(Edits.InsertChar(e, key.c).(history := e.history + [key]), false)
    ensures key.BackSpace? ==> r == Dispatched(Backspace(e, rp).(history := e.history + [key]), false)
    ensures key.PageUp? ==> r == Dispatched(PageUpJump(e).(history := e.history + [key]), false)
    ensures key.PageDown? ==> r == Dispatched(PageDownJump(e).(history := e.history + [key]), false)
    ensures key.End? ==> r == Dispatched(MoveToLineEnd(e).(history := e.history + [key]), false)
    ensures key == QuitKey ==> r == Quit(e).(editor := Quit(e).editor.(history := e.history + [key]))
    ensures key == SaveKey ==> r.editor.rows == e.rows && !r.allowExit
    ensures key == SaveKey ==>
      var (saved, out) := Save(e, rp, input, disk);
      r.editor == saved.(statusMessage := r.editor.statusMessage, history := e.history + [key])
    // arrows, Ctrl-L, Ctrl-H and every other control key only get recorded
    ensures (key.ArrowLeft? || key.ArrowRight? || key.ArrowUp? || key.ArrowDown?
             || (key.Ctrl? && key != QuitKey && key != SaveKey)) ==>
      r == Dispatched(e.(history := e.history + [key]), false)
  {
    if key.Null? then Dispatched(e, false)
    else
      var d := Apply(e, key, rp, input, disk);
      d.(editor := d.editor.(history := e.history + [key]))
  }

  /** With unsaved changes, the first Ctrl-Q only warns and an immediate second one exits. */
  lemma QuitTwiceWhenDirty(e: Editor, rp: RenderPosition, input: seq<byte>, disk: Disk)
    requires e.isDirty && !LastIsQuit(e.history)
    ensures var first := ProcessKeypress(e, QuitKey, rp, input, disk);
      && !first.allowExit
      && first.editor.statusMessage == UnsavedWarning
      && ProcessKeypress(first.editor, QuitKey, rp, input, disk).allowExit
  {
  }

  /** A clean buffer exits on the first Ctrl-Q. */
  lemma QuitAtOnceWhenClean(e: Editor, rp: RenderPosition, input: seq<byte>, disk: Disk)
    requires !e.isDirty
    ensures ProcessKeypress(e, QuitKey, rp, input, disk).allowExit
  {
  }

  /** `Null` between two Ctrl-Q presses is not recorded, so the second press still exits. */
  lemma NullKeepsQuitArmed(e: Editor, rp: RenderPosition, input: seq<byte>, disk: Disk)
    ensures var first := ProcessKeypress(e, QuitKey, rp, input, disk);
      var skipped := ProcessKeypress(first.editor, Null, rp, input, disk);
      ProcessKeypress(skipped.editor, QuitKey, rp, input, disk).allowExit
  {
  }

  /** Any other key between two Ctrl-Q presses disarms the gate while the buffer stays dirty. */
  lemma OtherKeyDisarmsQuit(e: Editor, key: Key, rp: RenderPosition, input: seq<byte>, disk: Disk)
    requires key != QuitKey && !key.Null?
    requires CanDispatch(e, key, input)
    ensures var first := ProcessKeypress(e, QuitKey, rp, input, disk);
      CanDispatch(first.editor, key, input) &&
      var between := ProcessKeypress(first.editor, key, rp, input, disk);
      between.editor.isDirty ==> !ProcessKeypress(between.editor, QuitKey, rp, input, disk).allowExit
  {
  }
}

=== FILE: editor.dfy ===
/**
 * The editor's state: the ordered rows, the character-space cursor, the
 * render-space cursor, the scroll offset, the window size, the status line,
 * the file name, the dirty flag and the key history (src/editor.rs, the
 * `Editor` struct). The output stream and its append buffer are terminal
 * plumbing and are not part of the state here.
 */
module EditorState {
  import opened EditorRow

  /** A pair of unsigned coordinates; used for cursors, the offset and the window size. */
  datatype Position = Position(x: nat, y: nat)

  /**
   * The decoded keys the editor core dispatches on. The key decoder's own
   * file is not part of this model; these are the variants the core names.
   */
  datatype Key =
    | Enter
    | Char(c: byte)
    | BackSpace
    | PageUp
    | PageDown
    | End
    | Ctrl(k: byte)
    | Null
    | ArrowLeft
    | ArrowRight
    | ArrowUp
    | ArrowDown

  datatype Editor = Editor(
    rows: seq<Row>,
    cursor: Position,
    renderCursor: Position,
    offset: Position,
    window: Position,
    statusMessage: string,
    fileName: string,
    isDirty: bool,
    history: seq<Key>)

  /** The file name of a buffer that has never been named. */
  const NoName: string := "[NO NAME]"

  /** 'Q' and 'S' as key codes. */
  const QuitKey: Key := Ctrl(81)
  const SaveKey: Key := Ctrl(83)

  /**
   * The cursor invariant: the row index may reach one past the last row
   * (the end-of-buffer row), the column may reach one past the row's last
   * byte, and on the end-of-buffer row the column is 0.
   */
  predicate CursorInBounds(e: Editor) {
    && e.cursor.y <= |e.rows|
    && (e.cursor.y < |e.rows| ==> e.cursor.x <= |e.rows[e.cursor.y].chars|)
    && (e.cursor.y == |e.rows| ==> e.cursor.x == 0)
  }
}

=== FILE: edits.dfy ===
/**
 * Buffer edits (`insert_row`, `open_empty`, `insert_newline`, `insert_char`,
 * `backspace` in src/editor.rs): insert, split and join on the row sequence,
 * each with its cursor bookkeeping. Every edit that changes the buffer marks
 * it dirty.
 */
module Edits {
  import opened EditorRow
  import opened EditorState

  /** Insert `row` so that it becomes row number `at`; the rows from `at` on shift down one. */
  function InsertRow(e: Editor, at: nat, row: Row): (r: Editor)
    requires at <= |e.rows|
    ensures |r.rows| == |e.rows| + 1
    ensures r.rows[at] == row
    ensures r.rows[..at] == e.rows[..at] && r.rows[at + 1..] == e.rows[at..]
    ensures r == e.(rows := r.rows, isDirty := true)
  {
    e.(rows := e.rows[..at] + [row] + e.rows[at..], isDirty := true)
  }

  /** Start an unnamed buffer: one empty row in front of whatever is there. */
  function OpenEmpty(e: Editor): (r: Editor)
    ensures r.rows == [Row([])] + e.rows
    ensures r == e.(rows := r.rows, isDirty := true)
    ensures CursorInBounds(e) && |e.rows| == 0 ==> CursorInBounds(r)
  {
    InsertRow(e, 0, Row([]))
  }

  /**
   * Enter needs the row under the cursor; and when that row is not empty,
   * the cursor must not be past its end (the split would panic).
   */
  predicate CanInsertNewline(e: Editor) {
    && e.cursor.y < |e.rows|
    && (|e.rows[e.cursor.y].chars| == 0 || e.cursor.x <= |e.rows[e.cursor.y].chars|)
  }

  /**
   * Enter: the current row is cut at the cursor and the right part becomes
   * the next row (an empty row when the cursor is at the end of the line or
   * the line is empty); the cursor goes to the start of the new row.
   */
  function InsertNewline(e: Editor): (r: Editor)
    requires CanInsertNewline(e)
    ensures |r.rows| == |e.rows| + 1
    ensures var k := ClampColumn(e.rows[e.cursor.y], e.cursor.x);
      && r.rows[e.cursor.y].chars == e.rows[e.cursor.y].chars[..k]
      && r.rows[e.cursor.y + 1].chars == e.rows[e.cursor.y].chars[k..]
    ensures r.rows[..e.cursor.y] == e.rows[..e.cursor.y]
    ensures r.rows[e.cursor.y + 2..] == e.rows[e.cursor.y + 1..]
    ensures r.cursor == Position(0, e.cursor.y + 1)
    ensures r == e.(rows := r.rows, cursor := r.cursor, isDirty := true)
    ensures CursorInBounds(r)
  {
    var x, y := e.cursor.x, e.cursor.y;
    var row := e.rows[y];
    var e' :=
      if |row.chars| == 0 || x == |row.chars| then
        InsertRow(e, y + 1, Row([]))
      else
        // here x < |row.chars|, so the right part is never empty and the
        // emptiness check around the second insertion always passes
        var (left, right) := Split(row, x);
        InsertRow(e.(rows := e.rows[y := left]), y + 1, right);
    e'.(cursor := Position(0, y + 1))
  }

  /** Type one byte at the cursor; both cursors advance one column. */
  function InsertChar(e: Editor, c: byte): (r: Editor)
    requires e.cursor.y < |e.rows|
    ensures |r.rows| == |e.rows|
    ensures r.rows == e.rows[e.cursor.y := EditorRow.InsertChar(e.rows[e.cursor.y], c, e.cursor.x)]
    ensures e.cursor.x <= |e.rows[e.cursor.y].chars| ==>
      r.rows[e.cursor.y].chars
        == e.rows[e.cursor.y].chars[..e.cursor.x] + [c] + e.rows[e.cursor.y].chars[e.cursor.x..]
    ensures r.cursor == Position(e.cursor.x + 1, e.cursor.y)
    ensures r.renderCursor == e.renderCursor.(x := e.renderCursor.x + 1)
    ensures r == e.(rows := r.rows, cursor := r.cursor, renderCursor := r.renderCursor, isDirty := true)
    ensures CursorInBounds(e) ==> CursorInBounds(r)
  {
    var y := e.cursor.y;
    e.(rows := e.rows[y := EditorRow.InsertChar(e.rows[y], c, e.cursor.x)],
       cursor := Position(e.cursor.x + 1, y),
       renderCursor := e.renderCursor.(x := e.renderCursor.x + 1),
       isDirty := true)
  }

  /**
   * Backspace needs the row under the cursor, except at the top-left corner
   * where it returns at once; on the end-of-buffer row of a non-empty buffer
   * the source would remove a row that does not exist.
   */
  predicate CanBackspace(e: Editor) {
    e.cursor.y < |e.rows| || e.cursor == Position(0, 0)
  }

  /**
   * Backspace: inside a line, delete the byte left of the cursor; at the
   * start of a line other than the first, join the line onto the previous
   * one; at the very start, do nothing, not even mark the buffer dirty.
   */
  function Backspace(e: Editor, rp: RenderPosition): (r: Editor)
    requires CanBackspace(e)
    ensures CursorInBounds(e) ==> CursorInBounds(r)
    ensures e.cursor == Position(0, 0) ==> r == e
    ensures e.cursor.x >= 1 ==>
      && r.rows == e.rows[e.cursor.y := DeleteChar(e.rows[e.cursor.y], e.cursor.x - 1)]
      && (e.cursor.x <= |e.rows[e.cursor.y].chars| ==>
            |r.rows[e.cursor.y].chars| + 1 == |e.rows[e.cursor.y].chars|)
      && r.cursor == Position(e.cursor.x - 1, e.cursor.y)
      && r.renderCursor.x == rp(r.rows[e.cursor.y].chars, e.cursor.x - 1)
      && r == e.(rows := r.rows, cursor := r.cursor, renderCursor := r.renderCursor, isDirty := true)
    ensures e.cursor.x == 0 && e.cursor.y > 0 ==>
      && |r.rows| + 1 == |e.rows|
      && r.rows[e.cursor.y - 1].chars == e.rows[e.cursor.y - 1].chars + e.rows[e.cursor.y].chars
      && r.rows[..e.cursor.y - 1] == e.rows[..e.cursor.y - 1]
      && r.rows[e.cursor.y..] == e.rows[e.cursor.y + 1..]
      && r.cursor == Position(|e.rows[e.cursor.y - 1].chars|, e.cursor.y - 1)
      && r == e.(rows := r.rows, cursor := r.cursor, isDirty := true)
  {
    var x, y := e.cursor.x, e.cursor.y;
    if x >= 1 then
      var row := DeleteChar(e.rows[y], x - 1);
      e.(rows := e.rows[y := row],
         cursor := Position(x - 1, y),
         renderCursor := e.renderCursor.(x := rp(row.chars, x - 1)),
         isDirty := true)
    else if y == 0 then
      e
    else
      var moved := e.rows[y];
      var rest := e.rows[..y] + e.rows[y + 1..];
      e.(rows := rest[y - 1 := Append(rest[y - 1], moved)],
         cursor := Position(|e.rows[y - 1].chars|, y - 1),
         isDirty := true)
  }

  /** Typing a byte and then backspacing restores the rows and the cursor. */
  lemma BackspaceUndoesInsertChar(e: Editor, c: byte, rp: RenderPosition)
    requires CursorInBounds(e) && e.cursor.y < |e.rows|
    ensures var r := Backspace(InsertChar(e, c), rp);
      r.rows == e.rows && r.cursor == e.cursor && r.isDirty
  {
    var i := InsertChar(e, c);
    var y := e.cursor.y;
    DeleteAfterInsert(e.rows[y], c, e.cursor.x);
    assert i.rows[y := e.rows[y]] == e.rows;
  }

  /** Enter followed by backspace rejoins the split line and puts the cursor back. */
  lemma BackspaceUndoesNewline(e: Editor, rp: RenderPosition)
    requires CursorInBounds(e) && e.cursor.y < |e.rows|
    ensures var r := Backspace(InsertNewline(e), rp);
      r.rows == e.rows && r.cursor == e.cursor && r.isDirty
  {
    var n := InsertNewline(e);
    var r := Backspace(n, rp);
    var y := e.cursor.y;
    var line := e.rows[y].chars;
    assert line[..e.cursor.x] + line[e.cursor.x..] == line;
    assert |r.rows| == |e.rows|;
    forall i | 0 <= i < |e.rows|
      ensures r.rows[i] == e.rows[i]
    {
      if i < y {
        assert r.rows[i] == r.rows[..y][i] == n.rows[..y][i] == e.rows[..y][i];
      } else if i > y {
        assert r.rows[i] == r.rows[y + 1..][i - y - 1];
        assert n.rows[y + 2..][i - y - 1] == e.rows[y + 1..][i - y - 1];
      }
    }
  }

  /** Enter at the end of "abc" in ["abc", "def"] gives ["abc", "", "def"] with the cursor at (0,1). */
  lemma NewlineAtLineEndExample(e: Editor)
    requires e.rows == [Row([97, 98, 99]), Row([100, 101, 102])] && e.cursor == Position(3, 0)
    ensures InsertNewline(e).rows == [Row([97, 98, 99]), Row([]), Row([100, 101, 102])]
    ensures InsertNewline(e).cursor == Position(0, 1)
  {
    var r := InsertNewline(e);
    assert r.rows[2..] == e.rows[1..];
    assert r.rows[1].chars == [];
  }

  /** Backspace at the start of "cd" in ["ab", "cd"] gives ["abcd"] with the cursor at (2,0). */
  lemma JoinExample(e: Editor, rp: RenderPosition)
    requires e.rows == [Row([97, 98]), Row([99, 100])] && e.cursor == Position(0, 1)
    ensures Backspace(e, rp).rows == [Row([97, 98, 99, 100])]
    ensures Backspace(e, rp).cursor == Position(2, 0)
  {
    var r := Backspace(e, rp);
    assert |r.rows| == 1;
    assert r.rows[0].chars == [97, 98] + [99, 100];
    assert r.rows[0].chars == [97, 98, 99, 100];
    assert r.rows == [r.rows[0]];
  }
}

=== FILE: file.dfy ===
/**
 * The file format, without the disk: saving writes every row followed by one
 * newline byte, in order (`save` in src/editor.rs); loading reads one row per
 * line (`open_file`, which relies on the standard library's line reader:
 * a line ends at a newline byte, a carriage return just before that newline
 * is dropped, and a final line without a newline still counts).
 */
module FileFormat {
  import opened EditorRow
  import opened EditorState

  const Newline: byte := 10
  const Return: byte := 13

  /** The bytes of all rows, without separators. */
  function TotalLength(rows: seq<Row>): nat
    decreases |rows|
  {
    if |rows| == 0 then 0 else |rows[0].chars| + TotalLength(rows[1..])
  }

  /** The bytes written for `rows`: each row's bytes and then one newline. */
  function Serialise(rows: seq<Row>): (bytes: seq<byte>)
    ensures |bytes| == TotalLength(rows) + |rows|
    ensures |rows| > 0 ==> bytes[|bytes| - 1] == Newline
    decreases |rows|
  {
    if |rows| == 0 then [] else rows[0].chars + [Newline] + Serialise(rows[1..])
  }

  /** The index of the first `b` in `s`, or |s| when there is none. */
  function IndexOf(s: seq<byte>, b: byte): (i: nat)
    ensures i <= |s|
    ensures forall j :: 0 <= j < i ==> s[j] != b
    ensures i < |s| ==> s[i] == b
    decreases |s|
  {
    if |s| == 0 then 0 else if s[0] == b then 0 else 1 + IndexOf(s[1..], b)
  }

  /** A line that ended in a newline loses a carriage return just before it. */
  function DropReturn(line: seq<byte>): seq<byte> {
    if |line| > 0 && line[|line| - 1] == Return then line[..|line| - 1] else line
  }

  /** Split file contents into rows, one per line. */
  function ParseLines(s: seq<byte>): (rows: seq<Row>)
    ensures forall i :: 0 <= i < |rows| ==> Newline !in rows[i].chars
    ensures |rows| <= |s|
    decreases |s|
  {
    if |s| == 0 then []
    else
      var i := IndexOf(s, Newline);
      if i == |s| then [Row(s)]
      else [Row(DropReturn(s[..i]))] + ParseLines(s[i + 1..])
  }

  /** A final line without a newline still becomes a row, carriage return and all. */
  lemma UnterminatedLastLineKept(line: seq<byte>)
    requires |line| > 0 && Newline !in line
    ensures ParseLines(line) == [Row(line)]
  {
    assert forall j :: 0 <= j < |line| ==> line[j] != Newline;
  }

  /** The first newline ends the first row; the bytes after it are parsed on their own. */
  lemma ParseFirstLine(line: seq<byte>, rest: seq<byte>)
    requires Newline !in line
    ensures ParseLines(line + [Newline] + rest) == [Row(DropReturn(line))] + ParseLines(rest)
  {
    var s := line + [Newline] + rest;
    assert forall j :: 0 <= j < |line| ==> s[j] == line[j];
    IndexOfFirst(s, Newline, |line|);
    assert s[..|line|] == line;
    assert s[|line| + 1..] == rest;
  }

  /** A line ended by a carriage return and a newline becomes a row without either. */
  lemma ReturnBeforeNewlineDropped(line: seq<byte>, rest: seq<byte>)
    requires Newline !in line
    ensures ParseLines(line + [Return, Newline] + rest) == [Row(line)] + ParseLines(rest)
  {
    assert line + [Return, Newline] + rest == (line + [Return]) + [Newline] + rest;
    ParseFirstLine(line + [Return], rest);
    assert (line + [Return])[..|line|] == line;
  }

  /** A row the file format can carry unchanged: no newline inside, no carriage return at its end. */
  predicate Storable(r: Row) {
    Newline !in r.chars && (|r.chars| == 0 || r.chars[|r.chars| - 1] != Return)
  }

  /** Reading back what was written gives the same rows. */
  lemma {:induction false} ParseAfterSerialise(rows: seq<Row>)
    requires forall i :: 0 <= i < |rows| ==> Storable(rows[i])
    ensures ParseLines(Serialise(rows)) == rows
    decreases |rows|
  {
    if |rows| > 0 {
      assert Serialise(rows) == rows[0].chars + [Newline] + Serialise(rows[1..]);
      ParseFirstLine(rows[0].chars, Serialise(rows[1..]));
      ParseAfterSerialise(rows[1..]);
      assert [rows[0]] + rows[1..] == rows;
    }
  }

  /** The first occurrence is the one `IndexOf` finds. */
  lemma IndexOfFirst(s: seq<byte>, b: byte, i: nat)
    requires i < |s| && s[i] == b
    requires forall j :: 0 <= j < i ==> s[j] != b
    ensures IndexOf(s, b) == i
  {
  }

  /**
   * Load file contents into the editor: every line is appended as a row,
   * the file name is recorded and the buffer is clean.
   */
  function OpenFile(e: Editor, name: string, contents: seq<byte>): (r: Editor)
    ensures |r.rows| == |e.rows| + |ParseLines(contents)|
    ensures r.rows[..|e.rows|] == e.rows
    ensures r.rows[|e.rows|..] == ParseLines(contents)
    ensures r == e.(rows := r.rows, fileName := name, isDirty := false)
    ensures CursorInBounds(e) && e.cursor.y < |e.rows| ==> CursorInBounds(r)
  {
    e.(rows := e.rows + ParseLines(contents), fileName := name, isDirty := false)
  }

  /** Opening a saved buffer in a fresh editor gives back the saved rows. */
  lemma OpenAfterSave(e: Editor, rows: seq<Row>, name: string)
    requires |e.rows| == 0
    requires forall i :: 0 <= i < |rows| ==> Storable(rows[i])
    ensures OpenFile(e, name, Serialise(rows)).rows == rows
  {
    ParseAfterSerialise(rows);
  }

  /**
   * Saving as the source writes it: a newline is pushed onto each row's own
   * bytes before the row is written, so the rows keep it afterwards.
   */
  function WriteRowsAsWritten(rows: seq<Row>): (r: (seq<Row>, seq<byte>))
    ensures |r.0| == |rows|
    ensures forall i :: 0 <= i < |rows| ==> r.0[i].chars == rows[i].chars + [Newline]
    ensures r.1 == Serialise(rows)
    decreases |rows|
  {
    if |rows| == 0 then ([], [])
    else
      var pushed := Row(rows[0].chars + [Newline]);
      var rest := WriteRowsAsWritten(rows[1..]);
      ([pushed] + rest.0, pushed.chars + rest.1)
  }

  /** Under the source's save, a second save writes one extra newline per row. */
  lemma SecondSaveAsWrittenGrows(rows: seq<Row>)
    ensures var first := WriteRowsAsWritten(rows);
      |WriteRowsAsWritten(first.0).1| == |first.1| + |rows|
  {
    var first := WriteRowsAsWritten(rows);
    SerialiseLength(first.0, rows);
  }

  lemma {:induction false} SerialiseLength(pushed: seq<Row>, rows: seq<Row>)
    requires |pushed| == |rows|
    requires forall i :: 0 <= i < |rows| ==> |pushed[i].chars| == |rows[i].chars| + 1
    ensures TotalLength(pushed) == TotalLength(rows) + |rows|
    decreases |rows|
  {
    if |rows| > 0 {
      SerialiseLength(pushed[1..], rows[1..]);
    }
  }

  /** The concrete case: the one-row buffer "a" is written as "a\n" and then as "a\n\n". */
  lemma SaveTwiceAsWrittenExample()
    ensures var first := WriteRowsAsWritten([Row([97])]);
      && first.1 == [97, 10]
      && WriteRowsAsWritten(first.0).1 == [97, 10, 10]
  {
    var rows: seq<Row> := [Row([97])];
    assert rows[1..] == [];
    assert WriteRowsAsWritten(rows[1..]) == ([], []);
    assert rows[0].chars + [Newline] == [97, 10];
    var first := WriteRowsAsWritten(rows);
    assert first.0 == [Row([97, 10])];
    assert first.1 == [97, 10];
    var again: seq<Row> := [Row([97, 10])];
    assert again[1..] == [];
    assert WriteRowsAsWritten(again[1..]) == ([], []);
    assert again[0].chars + [Newline] == [97, 10, 10];
    assert again == first.0;
    assert WriteRowsAsWritten(again).1 == [97, 10, 10];
  }
}

=== FILE: movement.dfy ===
/**
 * Cursor movement by the four arrow keys (`move_cursor` in src/editor.rs).
 * Only the cursor changes.
 */
module Movement {
  import opened EditorState

  /** How far right the cursor may go on its current row (0 on the end-of-buffer row). */
  function LimitX(e: Editor): nat
    requires e.cursor.y <= |e.rows|
  {
    if |e.rows| == 0 || e.cursor.y == |e.rows| then 0 else |e.rows[e.cursor.y].chars|
  }

  /** The last row arrow-right and arrow-down may reach. */
  function LimitY(e: Editor): nat {
    if |e.rows| == 0 then 0 else |e.rows| - 1
  }

  predicate IsArrow(key: Key) {
    key.ArrowLeft? || key.ArrowRight? || key.ArrowUp? || key.ArrowDown?
  }

  /**
   * Move the cursor one step. Arrow-up subtracts one from the row index, which
   * underflows (a panic) on the top row; from the end-of-buffer row it moves
   * straight up to the last row.
   */
  function MoveCursor(e: Editor, key: Key): (r: Editor)
    requires CursorInBounds(e)
    requires key.ArrowUp? ==> 0 < e.cursor.y
    ensures CursorInBounds(r)
    ensures r == e.(cursor := r.cursor)
    ensures !IsArrow(key) ==> r == e
    // movement never steps onto the end-of-buffer row
    ensures r.cursor.y == |e.rows| ==> r.cursor == e.cursor
    ensures key.ArrowUp? ==> r.cursor.y == e.cursor.y - 1 && r.cursor.x <= e.cursor.x
    ensures key.ArrowUp? && e.cursor.y == |e.rows| ==> r.cursor == Position(0, |e.rows| - 1)
    ensures key.ArrowDown? ==> r.cursor.y == if e.cursor.y + 1 < |e.rows| then e.cursor.y + 1 else e.cursor.y
    ensures key.ArrowDown? && e.cursor.y + 1 >= |e.rows| ==> r == e
    ensures key.ArrowLeft? && e.cursor.x > 0 ==> r.cursor == Position(e.cursor.x - 1, e.cursor.y)
    ensures key.ArrowRight? && e.cursor.y < |e.rows| && e.cursor.x < |e.rows[e.cursor.y].chars| ==>
      r.cursor == Position(e.cursor.x + 1, e.cursor.y)
  {
    var x, y := e.cursor.x, e.cursor.y;
    match key
    case ArrowLeft =>
      if x == 0 then
        if y > 0 then e.(cursor := Position(|e.rows[y - 1].chars|, y - 1)) else e
      else
        e.(cursor := Position(x - 1, y))
    case ArrowRight =>
      if y >= LimitY(e) && x >= LimitX(e) then e
      else if x < LimitX(e) then e.(cursor := Position(x + 1, y))
      else e.(cursor := Position(0, y + 1))
    case ArrowUp =>
      if y == |e.rows| then e.(cursor := Position(x, y - 1))
      else
      var above := |e.rows[y - 1].chars|;
      if x > above then e.(cursor := Position(above, y - 1))
      else e.(cursor := Position(x, y - 1))
    case ArrowDown =>
      if y < LimitY(e) then
        var below := |e.rows[y + 1].chars|;
        e.(cursor := Position(if x > below then below else x, y + 1))
      else e
    case _ => e
  }

  /** Arrow-left at the start of a line: a no-op on the first row, else the end of the previous row. */
  lemma ArrowLeftAtLineStart(e: Editor)
    requires CursorInBounds(e) && e.cursor.x == 0
    ensures e.cursor.y == 0 ==> MoveCursor(e, ArrowLeft) == e
    ensures e.cursor.y > 0 ==>
      MoveCursor(e, ArrowLeft).cursor == Position(|e.rows[e.cursor.y - 1].chars|, e.cursor.y - 1)
  {
  }

  /** Arrow-right at the end of a row that is not the last moves to the start of the next row. */
  lemma ArrowRightAtLineEnd(e: Editor)
    requires CursorInBounds(e)
    requires e.cursor.y + 1 < |e.rows| && e.cursor.x == |e.rows[e.cursor.y].chars|
    ensures MoveCursor(e, ArrowRight).cursor == Position(0, e.cursor.y + 1)
  {
  }

  /** Arrow-right at the end of the last row (or on the end-of-buffer row) stays put. */
  lemma ArrowRightAtBufferEnd(e: Editor)
    requires CursorInBounds(e)
    requires e.cursor.y + 1 >= |e.rows|
    requires e.cursor.y < |e.rows| ==> e.cursor.x == |e.rows[e.cursor.y].chars|
    ensures MoveCursor(e, ArrowRight) == e
  {
  }

  /** Arrow-down onto a row clamps the column to that row's length. */
  lemma ArrowDownClampsColumn(e: Editor)
    requires CursorInBounds(e) && e.cursor.y + 1 < |e.rows|
    ensures var below := |e.rows[e.cursor.y + 1].chars|;
      MoveCursor(e, ArrowDown).cursor
        == Position(if e.cursor.x > below then below else e.cursor.x, e.cursor.y + 1)
  {
  }

  /** Arrow-up onto a row clamps the column to that row's length. */
  lemma ArrowUpClampsColumn(e: Editor)
    requires CursorInBounds(e) && 0 < e.cursor.y < |e.rows|
    ensures var above := |e.rows[e.cursor.y - 1].chars|;
      MoveCursor(e, ArrowUp).cursor
        == Position(if e.cursor.x > above then above else e.cursor.x, e.cursor.y - 1)
  {
  }

  /** Arrow-up from the end-of-buffer row lands at the start of the last row, whatever its length. */
  lemma ArrowUpFromBufferEnd(e: Editor)
    requires CursorInBounds(e) && 0 < e.cursor.y == |e.rows|
    ensures MoveCursor(e, ArrowUp).cursor == Position(0, |e.rows| - 1)
    ensures MoveCursor(MoveCursor(e, ArrowUp), ArrowDown) == MoveCursor(e, ArrowUp)
  {
  }

  /** Arrow-left undoes every arrow-right that moved the cursor. */
  lemma LeftUndoesRight(e: Editor)
    requires CursorInBounds(e)
    requires MoveCursor(e, ArrowRight).cursor != e.cursor
    ensures MoveCursor(MoveCursor(e, ArrowRight), ArrowLeft) == e
  {
  }

  /** Arrow-right undoes arrow-left everywhere except at the top-left corner and on the end-of-buffer row. */
  lemma RightUndoesLeft(e: Editor)
    requires CursorInBounds(e)
    requires e.cursor.y < |e.rows| && (e.cursor.x > 0 || e.cursor.y > 0)
    ensures MoveCursor(MoveCursor(e, ArrowLeft), ArrowRight) == e
  {
  }

  /** Arrow-up undoes arrow-down when the column did not need clamping. */
  lemma UpUndoesDown(e: Editor)
    requires CursorInBounds(e)
    requires e.cursor.y + 1 < |e.rows| && e.cursor.x <= |e.rows[e.cursor.y + 1].chars|
    ensures MoveCursor(MoveCursor(e, ArrowDown), ArrowUp) == e
  {
  }
}

=== FILE: prompt.dfy ===
/**
 * The "Save as" prompt (`save_prompt` in src/editor.rs) with the stdin read
 * stripped away: a fold over the bytes the user types. Carriage return
 * accepts the collected name, Escape cancels, byte 8 erases the last
 * collected byte, printable ASCII is collected and anything else is ignored.
 */
module SavePrompt {
  import opened EditorRow

  const CarriageReturn: byte := 13
  const Escape: byte := 27
  const Erase: byte := 8

  predicate Printable(b: byte) {
    32 <= b <= 126
  }

  predicate AllPrintable(s: seq<byte>) {
    forall i :: 0 <= i < |s| ==> Printable(s[i])
  }

  predicate IsTerminator(b: byte) {
    b == CarriageReturn || b == Escape
  }

  datatype PromptResult =
    | Accepted(name: seq<byte>)
    | Canceled
    | Waiting(buffer: seq<byte>)   // the input ran out before Enter or Escape

  /** What one non-terminating byte does to the collected buffer. */
  function Edit(buf: seq<byte>, b: byte): (r: seq<byte>)
    ensures Printable(b) ==> r == buf + [b]
    ensures b == Erase ==> r == if |buf| == 0 then [] else buf[..|buf| - 1]
    ensures !Printable(b) && b != Erase ==> r == buf
    ensures AllPrintable(buf) ==> AllPrintable(r)
  {
    if b == Erase then (if |buf| == 0 then [] else buf[..|buf| - 1])
    else if Printable(b) then buf + [b]
    else buf
  }

  /** The buffer after the bytes `s`, replayed from the first: the reference definition. */
  function Collect(s: seq<byte>): (buf: seq<byte>)
    ensures AllPrintable(buf)
    ensures |buf| <= |s|
    decreases |s|
  {
    if |s| == 0 then [] else Edit(Collect(s[..|s| - 1]), s[|s| - 1])
  }

  /** The index of the first Enter or Escape in `s`, or |s| when there is none. */
  function FirstTerminator(s: seq<byte>): (i: nat)
    ensures i <= |s|
    ensures forall j :: 0 <= j < i ==> !IsTerminator(s[j])
    ensures i < |s| ==> IsTerminator(s[i])
    decreases |s|
  {
    if |s| == 0 then 0
    else if IsTerminator(s[0]) then 0
    else 1 + FirstTerminator(s[1..])
  }

  /** The prompt's outcome on input `s`: decided by the first terminator, if any. */
  function Prompt(s: seq<byte>): (r: PromptResult) {
    var i := FirstTerminator(s);
    if i == |s| then Waiting(Collect(s))
    else if s[i] == CarriageReturn then Accepted(Collect(s[..i]))
    else Canceled
  }

  /**
   * The prompt loop itself: read one byte at a time until Enter or Escape.
   * `used` is the number of bytes consumed.
   */
  method RunPrompt(input: seq<byte>) returns (r: PromptResult, used: nat)
    ensures r == Prompt(input)
    ensures used <= |input|
    ensures !r.Waiting? ==> used >= 1 && IsTerminator(input[used - 1])
    ensures forall j :: 0 <= j < used - 1 ==> !IsTerminator(input[j])
    ensures r.Waiting? ==> used == |input|
    ensures r.Accepted? ==> AllPrintable(r.name) && |r.name| < used
  {
    var buf: seq<byte> := [];
    var i := 0;
    while i < |input|
      invariant i <= |input|
      invariant forall j :: 0 <= j < i ==> !IsTerminator(input[j])
      invariant buf == Collect(input[..i])
    {
      var b := input[i];
      assert input[..i + 1][..i] == input[..i];
      if b == CarriageReturn {
        TerminatorAt(input, i);
        return Accepted(buf), i + 1;
      } else if b == Escape {
        TerminatorAt(input, i);
        return Canceled, i + 1;
      }
      buf := Edit(buf, b);
      i := i + 1;
    }
    assert input[..i] == input;
    NoTerminator(input);
    return Waiting(buf), i;
  }

  /** A terminator with none before it is the first one. */
  lemma TerminatorAt(s: seq<byte>, i: nat)
    requires i < |s| && IsTerminator(s[i])
    requires forall j :: 0 <= j < i ==> !IsTerminator(s[j])
    ensures FirstTerminator(s) == i
  {
  }

  /** Input without a terminator runs to its end. */
  lemma NoTerminator(s: seq<byte>)
    requires forall j :: 0 <= j < |s| ==> !IsTerminator(s[j])
    ensures FirstTerminator(s) == |s|
  {
  }

  /** The accepted name only ever holds printable ASCII. */
  lemma AcceptedNamePrintable(s: seq<byte>)
    ensures Prompt(s).Accepted? ==> AllPrintable(Prompt(s).name)
  {
  }

  /** Escape before any Enter cancels, Enter before any Escape accepts, and nothing else ends the prompt. */
  lemma PromptEndsAtFirstTerminator(s: seq<byte>, i: nat)
    requires i < |s| && IsTerminator(s[i])
    requires forall j :: 0 <= j < i ==> !IsTerminator(s[j])
    ensures s[i] == Escape ==> Prompt(s) == Canceled
    ensures s[i] == CarriageReturn ==> Prompt(s) == Accepted(Collect(s[..i]))
  {
    TerminatorAt(s, i);
  }

  /** Bytes after the terminator are never read: extending a finished input changes nothing. */
  lemma {:induction false} PromptIgnoresTrailingInput(s: seq<byte>, more: seq<byte>)
    requires !Prompt(s).Waiting?
    ensures Prompt(s + more) == Prompt(s)
  {
    var i := FirstTerminator(s);
    assert (s + more)[i] == s[i];
    assert forall j :: 0 <= j < i ==> (s + more)[j] == s[j];
    TerminatorAt(s + more, i);
    assert (s + more)[..i] == s[..i];
  }

  /** Typing a printable byte and then erasing it leaves the buffer as it was. */
  lemma EraseUndoesTyping(s: seq<byte>, b: byte)
    requires Printable(b)
    ensures Collect(s + [b, Erase]) == Collect(s)
  {
    assert (s + [b, Erase])[..|s| + 1] == s + [b];
    assert (s + [b])[..|s|] == s;
  }

  /** Erasing on an empty buffer leaves it empty. */
  lemma EraseOnEmpty(s: seq<byte>)
    requires Collect(s) == []
    ensures Collect(s + [Erase]) == []
  {
    assert (s + [Erase])[..|s|] == s;
  }
}

=== FILE: row.dfy ===
/**
 * One line of the buffer.
 *
 * The row's own source file (src/row.rs) is not part of this model. Its
 * operations are given their plain sequence meanings here, and these
 * meanings are assumptions about that file: `InsertChar` inserts at a
 * clamped column, `DeleteChar` removes an in-range column, `Split` keeps
 * the left part and returns the right part, `Append` concatenates. The
 * rendered form (tab expansion) is not modelled; whatever needs the
 * character-to-render column mapping takes it as a parameter.
 */
module EditorRow {

  /** An unsigned 8-bit value; a row holds raw bytes, one per column. */
  type byte = b: int | 0 <= b < 256

  datatype Row = Row(chars: seq<byte>)

  /** The row's character-to-render column mapping, left abstract. */
  type RenderPosition = (seq<byte>, nat) -> nat

  /** The column an insertion really happens at: `at`, clamped to the row's length. */
  function ClampColumn(r: Row, at: nat): (k: nat)
    ensures k <= |r.chars|
    ensures at <= |r.chars| ==> k == at
  {
    if at <= |r.chars| then at else |r.chars|
  }

  /** Insert one byte at column `at` (clamped to the row's length). */
  function InsertChar(r: Row, c: byte, at: nat): (r': Row)
    ensures |r'.chars| == |r.chars| + 1
    ensures r'.chars[ClampColumn(r, at)] == c
    ensures r'.chars[..ClampColumn(r, at)] == r.chars[..ClampColumn(r, at)]
    ensures r'.chars[ClampColumn(r, at) + 1..] == r.chars[ClampColumn(r, at)..]
  {
    var k := ClampColumn(r, at);
    Row(r.chars[..k] + [c] + r.chars[k..])
  }

  /** Remove the byte at column `at`; a column past the end changes nothing. */
  function DeleteChar(r: Row, at: nat): (r': Row)
    ensures at < |r.chars| ==> |r'.chars| == |r.chars| - 1
    ensures at < |r.chars| ==> r'.chars[..at] == r.chars[..at] && r'.chars[at..] == r.chars[at + 1..]
    ensures at >= |r.chars| ==> r' == r
  {
    if at < |r.chars| then Row(r.chars[..at] + r.chars[at + 1..]) else r
  }

  /** Cut the row at column `at`: the left part stays, the right part is returned as a new row. */
  function Split(r: Row, at: nat): (parts: (Row, Row))
    requires at <= |r.chars|
    ensures |parts.0.chars| == at
    ensures |parts.0.chars| + |parts.1.chars| == |r.chars|
  {
    (Row(r.chars[..at]), Row(r.chars[at..]))
  }

  /** Concatenate `other`'s bytes onto the end of `r`. */
  function Append(r: Row, other: Row): (r': Row)
    ensures |r'.chars| == |r.chars| + |other.chars|
    ensures r'.chars[..|r.chars|] == r.chars
    ensures r'.chars[|r.chars|..] == other.chars
  {
    Row(r.chars + other.chars)
  }

  /** Deleting the byte just inserted gives back the original row. */
  lemma DeleteAfterInsert(r: Row, c: byte, at: nat)
    requires at <= |r.chars|
    ensures DeleteChar(InsertChar(r, c, at), at) == r
  {
    var s := InsertChar(r, c, at).chars;
    assert s[..at] + s[at + 1..] == r.chars[..at] + r.chars[at..];
    assert r.chars[..at] + r.chars[at..] == r.chars;
  }

  /** Re-inserting a deleted byte at its column gives back the original row. */
  lemma InsertAfterDelete(r: Row, at: nat)
    requires at < |r.chars|
    ensures InsertChar(DeleteChar(r, at), r.chars[at], at) == r
  {
    var d := DeleteChar(r, at);
    assert d.chars[..at] + [r.chars[at]] + d.chars[at..] == r.chars[..at] + [r.chars[at]] + r.chars[at + 1..];
    assert r.chars[..at] + [r.chars[at]] + r.chars[at + 1..] == r.chars;
  }

  /** Appending the right part of a split back onto the left part restores the row. */
  lemma AppendAfterSplit(r: Row, at: nat)
    requires at <= |r.chars|
    ensures Append(Split(r, at).0, Split(r, at).1) == r
  {
    assert r.chars[..at] + r.chars[at..] == r.chars;
  }
}

=== FILE: scroll.dfy ===
/**
 * The viewport (`scroll` in src/editor.rs): before each frame the scroll
 * offset is recomputed so that the cursor, translated to render space, lies
 * inside the window; the terminal cursor is then placed relative to it.
 */
module Viewport {
  import opened EditorRow
  import opened EditorState

  /** The render-space column of the cursor: 0 on the end-of-buffer row. */
  function RenderX(e: Editor, rp: RenderPosition): nat {
    if e.cursor.y < |e.rows| then rp(e.rows[e.cursor.y].chars, e.cursor.x) else 0
  }

  /** `pos` lies in the window of width `win` that starts at `off`. */
  predicate InWindow(pos: nat, off: nat, win: nat) {
    off <= pos < off + win
  }

  /**
   * One axis of the scroll: pull the offset back to the cursor when the cursor
   * is before it, then push it forward so that the cursor is the last visible
   * cell when the cursor is past the window.
   */
  function ScrollAxis(pos: nat, off: nat, win: nat): (r: nat)
    ensures win >= 1 ==> InWindow(pos, r, win)
    ensures InWindow(pos, off, win) ==> r == off
  {
    var o := if pos < off then pos else off;
    if pos >= o + win then pos - win + 1 else o
  }

  /**
   * Recompute the render cursor's column and the offset. With a window at
   * least one cell in each direction the cursor is visible afterwards.
   */
  function Scroll(e: Editor, rp: RenderPosition): (r: Editor)
    ensures r == e.(offset := r.offset, renderCursor := r.renderCursor)
    ensures r.renderCursor == Position(RenderX(e, rp), e.renderCursor.y)
    ensures e.window.y >= 1 ==> InWindow(e.cursor.y, r.offset.y, e.window.y)
    ensures e.window.x >= 1 ==> InWindow(r.renderCursor.x, r.offset.x, e.window.x)
    ensures InWindow(e.cursor.y, e.offset.y, e.window.y) ==> r.offset.y == e.offset.y
    ensures InWindow(RenderX(e, rp), e.offset.x, e.window.x) ==> r.offset.x == e.offset.x
  {
    var rx := RenderX(e, rp);
    e.(renderCursor := e.renderCursor.(x := rx),
       offset := Position(ScrollAxis(rx, e.offset.x, e.window.x),
                          ScrollAxis(e.cursor.y, e.offset.y, e.window.y)))
  }

  /** A second scroll changes nothing, whatever the window size. */
  lemma ScrollIdempotent(e: Editor, rp: RenderPosition)
    ensures Scroll(Scroll(e, rp), rp) == Scroll(e, rp)
  {
    var s := Scroll(e, rp);
    assert RenderX(s, rp) == RenderX(e, rp);
    AxisIdempotent(RenderX(e, rp), e.offset.x, e.window.x);
    AxisIdempotent(e.cursor.y, e.offset.y, e.window.y);
  }

  lemma AxisIdempotent(pos: nat, off: nat, win: nat)
    ensures ScrollAxis(pos, ScrollAxis(pos, off, win), win) == ScrollAxis(pos, off, win)
  {
    if win == 0 {
      assert ScrollAxis(pos, off, win) == pos + 1;
    }
  }

  /**
   * The scroll moves the offset no further than any offset that keeps the
   * cursor visible would: it is the visible offset nearest the old one.
   */
  lemma AxisMovesLeast(pos: nat, off: nat, win: nat, other: nat)
    requires InWindow(pos, other, win)
    ensures Distance(ScrollAxis(pos, off, win), off) <= Distance(other, off)
  {
  }

  function Distance(a: nat, b: nat): nat {
    if a <= b then b - a else a - b
  }

  /**
   * The 1-based terminal row and column the cursor is drawn at (the
   * `CursorTo` in `refresh_screen`); the subtractions are on unsigned values,
   * so the offset must not be past the cursor.
   */
  function ScreenCursor(e: Editor): (rc: (nat, nat))
    requires e.offset.y <= e.cursor.y && e.offset.x <= e.renderCursor.x
    ensures rc.0 >= 1 && rc.1 >= 1
  {
    (e.cursor.y - e.offset.y + 1, e.renderCursor.x - e.offset.x + 1)
  }

  /**
   * After a scroll the terminal cursor position can be computed without
   * underflow and lands inside the window.
   */
  lemma ScrolledCursorOnScreen(e: Editor, rp: RenderPosition)
    requires e.window.x >= 1 && e.window.y >= 1
    ensures var s := Scroll(e, rp);
      && s.offset.y <= s.cursor.y && s.offset.x <= s.renderCursor.x
      && 1 <= ScreenCursor(s).0 <= e.window.y
      && 1 <= ScreenCursor(s).1 <= e.window.x
  {
  }
}

=== FILE: wrappers.dfy ===
/** Failure-carrying wrappers shared by the editor modules. */
module Wrappers {

  /** A value that may be absent. */
  datatype Option<+T> = None | Some(value: T)

  /** An operation's outcome: a value, or an error description. */
  datatype Result<+R, +E> = Success(value: R) | Failure(error: E)
}
